=== FILE: README.md ===
# Fade: a verified model of a single-LED fade controller

The `Fade` class drives one PWM-capable pin from its current brightness
(0..100) toward a target brightness over a duration. Commands (`on`, `off`,
`toggle`, `fade_to`) set the logical on/off state and the target, then call a
step planner. The planner splits the fade into equal steps that are at least
10 ms apart. It either steps every 10 ms by the truncated quotient of the
brightness change, or steps by one unit and stretches the interval. A tick
(`loop`) takes one step when more than the interval has passed since the last
step. When the steps are used up, the tick writes the exact final value. Every
write goes through the PWM pipeline: clamp to 0..100, map linearly to
0..1024, apply the gamma callback, and invert for inverted pins.

The model is functional. `Fade.FadeState` holds the class's fields, and every
operation is a pure function from the old state to the new one. The clock
reading `millis()` is a parameter `now`. Every value passed to `analogWrite`
is appended to the state's `written` log. The gamma callback is an
`Option<int -> int>`, where `None` is the empty callback.

Modules:
- `Options` (options.dfy): the optional value used for the absent duration and the empty callback.
- `Arith` (arith.dfy): multiplication and division facts used by the linear map and the planner.
- `Pwm` (pwm.dfy): pin validity, byte conversion, clamp, linear map, gamma, inversion.
- `Planner` (planner.dfy): the step-planning arithmetic.
- `Fade` (fade.dfy): the state, the invariant, and every operation of the class.
- `Convergence` (convergence.dfy): repeated ticks, convergence, no overshoot.
- `Session` (session.dfy): arbitrary call sequences, invariance, inert refused pins.
- `Scenarios` (scenarios.dfy): concrete call sequences with their proved outcomes.

Behaviour of the code that the model keeps as written:
- A tick takes a step only when strictly more than the interval has passed since the last step (line 135). A tick exactly one interval later takes none (`Fade.StepDue`).
- The instant path writes the target but does not mark the plan done or reset its counters (lines 129-131). A plan already in flight keeps stepping, and `Scenarios.InstantCommandKeepsPlanRunning` shows that a later step can wrap below 0 and clamp to full brightness.
- On a refused pin the commands still set `state` and `target`. Only the planner and the PWM write are skipped (lines 68-85, 94, 152).
- The steps times the interval fall short of the requested duration by less than 10 ms in the fast branch and by less than the step count in the slow branch (`Planner.SplitFadeTiming`, lines 106-117).
- With the empty gamma callback and normal polarity, full brightness writes 1024 (line 157), the PWM range constant itself (line 18).

## Model

| member | source | states |
|---|---|---|
| Fade.Initial | src/Fade.h:167-189 | The initial fields satisfy the invariant: pin 255 (refused), normal polarity, no callback, state off, brightness 0, target 0, previous 100, global duration 0, step clock 0, no fade in progress, nothing written |
| Fade.Construct | src/Fade.h:34-45 | An accepted pin (1..16) records pin, polarity and default gamma; a refused pin leaves the initial state; either way the invariant holds, the channel is off at brightness 0 with target 0, remembered brightness 100, global duration 0 and step clock 0, and no fade is in progress |
| Fade.SetGlobalDuration | src/Fade.h:54-56 | Only the global duration changes, to the given value, and the invariant is kept |
| Fade.SetGammaCallback | src/Fade.h:57-59 | An empty callback leaves the state unchanged (the old callback stays); a non-empty one replaces the callback and nothing else |
| Pwm.PinValid | src/Fade.h:89-91 | Pins 1..16 are accepted; the placeholder pin 255 of an unconfigured channel and pin 0 are refused, and every refused pin is 0 or above 16 |
| Pwm.ApplyGamma | src/Fade.h:158 | The gamma stage is the identity when the callback is empty and the callback's value otherwise |
| Pwm.PwmOutput | src/Fade.h:157-159 | The written value is the gamma of the linear map, subtracted from 1024 on inverted pins; with the empty callback it lies in 0..1024 and is 0 exactly at brightness 0 (normal) or 100 (inverted) |
| Fade.IsFading | src/Fade.h:62-64 | On a valid pin, a channel that reports no fade in progress is at its target brightness; a channel on a refused pin never reports a fade |
| Fade.Resolve | src/Fade.h:99 | An explicit duration is used as given; an absent one means the global duration |
| Fade.StepDue | src/Fade.h:135 | A step is due only during a fade with steps left and only once strictly more than the interval has passed; at exactly the interval no step is due |
| Fade.FinalBrightness | src/Fade.h:143 | The final write targets 0 when off; in any consistent state it is exactly the target, within 0..100 |
| Fade.SetPwm | src/Fade.h:151-165 | On a refused pin or a value equal to the current brightness nothing changes; otherwise the brightness becomes the clamped value and exactly one duty value, the pipeline output for it, is appended to the pin's log |
| Fade.HandleFade | src/Fade.h:134-150 | A completed plan is never changed; a due step records the clock, counts exactly one step, and moves the brightness and writes the duty value exactly as the PWM write of the byte-reduced step does; a plan with its steps used up gets the PWM write of the exact final brightness, is marked done and its counter reset; a step not yet due changes nothing; at most one write per tick; the invariant is kept |
| Fade.Loop | src/Fade.h:49-51 | A tick on a completed plan changes nothing, and the invariant is kept |
| Fade.Refresh | src/Fade.h:96 | The remembered brightness is never 0: the new target when nonzero, else the old remembered value when nonzero, else 100 |
| Fade.Remember | src/Fade.h:96 | Refreshing the remembered brightness keeps a consistent state consistent and makes a nonzero target the remembered one |
| Fade.StartInstant | src/Fade.h:96-131 | On an accepted pin the instant path refreshes the remembered brightness and sets the brightness to the target, appending the pipeline output for the target unless the brightness already was the target; no plan field, done flag, step count or step clock changes; a consistent state comes out satisfying the invariant |
| Fade.Launch | src/Fade.h:106-127 | Before its first tick a planned fade has the split's step change, interval and step count, no step taken and the plan not done, nothing else changed but the remembered brightness; a consistent state comes out satisfying the invariant |
| Fade.StartPlan | src/Fade.h:96-128 | On an accepted pin the planned path refreshes the remembered brightness and gives a plan of min(abs(b), d/10) steps whose step change and interval are those of the split, at least 10 ms apart, never overshooting abs(b), in the direction of b, done exactly when it has no steps, having taken a step exactly when one was due, and keeps the invariant |
| Fade.StartFade | src/Fade.h:92-133 | Refused pin: no change. Otherwise previous is refreshed. Instant path (duration 0 or target equals brightness): the target is written, with the pipeline output for it appended unless the brightness already was the target, and the plan fields, done flag and counters are untouched. Planned path: step change and interval are those of the split, step count is min(abs(b), duration/10), interval at least 10 ms, total step change at most abs(b) and in the direction of b, done exactly when there are no steps, and the immediate tick took a step exactly when one was due. Any state with the command-time facts comes out satisfying the invariant |
| Fade.On | src/Fade.h:67-71 | The channel is on and targets the remembered brightness, which is nonzero and stays remembered |
| Fade.Off | src/Fade.h:72-76 | The channel is off and targets 0, and the remembered brightness is kept for a later on |
| Fade.Toggle | src/Fade.h:77-81 | The logical state flips; the target is the remembered brightness when now on and 0 when now off |
| Fade.FadeTo | src/Fade.h:82-86 | The target is the given brightness and the channel is on exactly when it is nonzero; a nonzero brightness becomes the remembered one on a valid pin |
| Pwm.ToByte | src/Fade.h:137 | The argument of the PWM write is the int reduced modulo 256: congruent to the input, and equal to it for inputs 0..255 |
| Pwm.Constrain | src/Fade.h:154 | The stored brightness is within 0..100, equal to the value when it is in range and 100 above it |
| Pwm.MapRange | src/Fade.h:157 | The duty value is the truncated quotient of brightness*1024 by 100, within 0..1024 |
| Pwm.MapRangeRoundTrip | src/Fade.h:157 | The linear map is undone by rounding duty*100/1024 up, so no two brightness levels share a duty value |
| Pwm.MapRangeIncreasing | src/Fade.h:157 | Each brightness level raises the duty value by at least 10 |
| Pwm.IdentityPipeline | src/Fade.h:157-159 | With the empty callback and normal polarity the output is the linear map: 0, 50 and 100 give 0, 512 and 1024 |
| Pwm.InvertedComplement | src/Fade.h:159 | An inverted pin gets 1024 minus what a normal pin with the same callback gets |
| Planner.TruncDiv | src/Fade.h:110 | The per-step change of a fast fade is the quotient truncated toward zero: its magnitude times the divisor brackets abs(b) from below by less than one divisor, and its sign is that of b |
| Planner.TruncDivUnique | src/Fade.h:110 | Any value meeting that bracket-and-sign description is the truncated quotient |
| Planner.SplitFade | src/Fade.h:106-117 | Step count is min(abs(b), duration/10); interval at least 10 ms; nonzero steps move in the direction of b; steps never overshoot abs(b) and fall short of it by less than one unit per step; steps times interval fit in the duration |
| Planner.SplitFadeBranches | src/Fade.h:109-117 | Fast branch (abs(b) above duration/10): 10 ms interval, duration/10 steps of magnitude at least 1; slow branch: steps of exactly sign(b), abs(b) of them, duration/abs(b) ms apart, which is at least 10 |
| Planner.IntervalAtLeastTen | src/Fade.h:115 | The stretched interval duration/abs(b) is at least 10 ms and its multiple by abs(b) fits in the duration |
| Planner.ShortDurationHasNoSteps | src/Fade.h:106-112 | Durations of 1..9 ms give a plan without steps |
| Planner.SplitFadeTiming | src/Fade.h:106-117 | The requested duration exceeds the plan's steps times interval by less than 10 ms in the fast branch and less than the step count in the slow branch |
| Convergence.FadingMeansTickActs | src/Fade.h:62-64 | is_fading tells whether a tick can act: a channel not fading is left unchanged by every tick, and a fading one is changed by a tick more than the interval after its last step |
| Convergence.Run | src/Fade.h:134-150 | Repeated ticks never change a completed plan, keep the invariant and the plan fields, and only append to the log |
| Convergence.Converges | src/Fade.h:135-145 | On a valid pin, ticks each more than the interval after the previous complete the plan within its remaining steps plus one (at most numSteps+1) and leave the brightness exactly on the target, whatever the truncation of the step |
| Convergence.PartialSumBetween | src/Fade.h:109-117 | Any number of a sound plan's steps up to its step count lands between the start brightness and the target |
| Convergence.TrackingBetween | src/Fade.h:135-145 | A state that follows a plan lies between the plan's start and its target |
| Convergence.TickKeepsTracking | src/Fade.h:135-145 | A tick keeps a state on its plan: a step moves exactly one step change without wrap or clamp, and the final write lands on the target |
| Convergence.RunKeepsTracking | src/Fade.h:135-145 | Any sequence of ticks keeps a state on its plan and between start and target |
| Convergence.LaunchTracks | src/Fade.h:106-127 | A launched plan is sound and starts on its plan at the brightness of the command |
| Convergence.StartPlanTracking | src/Fade.h:106-128 | The planned path, including its immediate tick, starts on its plan from the brightness it was called with |
| Convergence.PlanStartsTracking | src/Fade.h:106-128 | A planned fade, including its immediate tick, starts on its plan from the brightness at the time of the command |
| Convergence.FadeNeverOvershoots | src/Fade.h:106-145 | After a planned fade starts, every brightness produced by any later ticks lies between the starting brightness and the target |
| Session.Apply | src/Fade.h:49-86 | Every public operation keeps the invariant and the pin |
| Session.Replay | src/Fade.h:49-86 | Any admissible sequence of calls keeps the invariant and the pin |
| Session.RefusedPinStaysInert | src/Fade.h:89-94 | On a refused pin, after any sequence of calls, nothing has been written, the brightness is 0 and no fade is in progress |
| Session.OffThenOnRestores | src/Fade.h:67-76 | Off followed by on targets again the nonzero brightness targeted before, and the channel is on |
| Session.ToggleTwiceRestores | src/Fade.h:77-81 | Two toggles give back the logical state and the target |
| Scenarios.SlowFadeToFull | src/Fade.h:106-117 | fade_to(100, 1000) from 0 plans 100 steps of +1, 10 ms apart, and no step is due at time 0 |
| Scenarios.SlowFadeToFullCompletes | src/Fade.h:135-145 | That fade, ticked at least 101 times more than 10 ms apart, ends at 100 with no fade in progress |
| Scenarios.PlanCompletes | src/Fade.h:135-145 | A 100-step plan to full brightness with a 10 ms interval completes under ticks more than 10 ms apart |
| Scenarios.FastFadeToFull | src/Fade.h:109-112 | fade_to(100, 100) from 0 plans 10 steps of +10, 10 ms apart |
| Scenarios.FirstOnTargetsFull | src/Fade.h:67-70 | The first on() of a freshly built channel, on any pin, turns it on with target 100, the initial remembered brightness |
| Scenarios.InstantCommands | src/Fade.h:129-131 | With global duration 0, fade_to(60), off and on are instant, never leave a fade in progress, and write 614, 0, 614 |
| Scenarios.RefusedPinCommand | src/Fade.h:82-94 | On pin 0, fade_to(50, 1000) sets state and target but writes nothing and starts no fade |
| Scenarios.DimmingPlan | src/Fade.h:106-117 | fade_to(100, 0) then off(100) from dark plans 10 steps of -10, 10 ms apart, from full brightness |
| Scenarios.InstantOffFlashes | src/Fade.h:129-137 | On any channel dimming from 100 in steps of -10, one step then an instant fade_to(0) leaves the plan running, and its next step wraps 0-10 to 246 and clamps to 100 while the target is 0 |
| Scenarios.InstantCommandKeepsPlanRunning | src/Fade.h:129-137 | An instant fade_to(0) during a fade from 100 down leaves the old plan running; its next step writes 0-10, which wraps to 246 and clamps to 100 while the target is 0 |

## Left out

- Arduino I/O: `pinMode` (line 38) is not modelled. `analogWrite` (line 163) becomes an append to the `written` log. `millis()` (lines 135-136) becomes the parameter `now`, read once per tick.
- The default gamma lambda (lines 40-42) uses `pow` and `float`. It is a parameter of `Fade.Construct`, and `None` there stands for a build with `FADE_NO_GAMMA_CORRECTION`. Gamma callbacks are arbitrary total `int -> int` functions.
- Fade.HandleFade: assumes the clock has not wrapped since the last step (`now >= fadeTimer`). The `unsigned long` wrap-around of `millis() - _fade_timer` is not modelled.
- Fade.StartFade: modelled only for resolved durations below 2^24 ms (about 4.6 hours). Below that bound the single-precision division at line 115 truncates to the exact integer quotient. From 2^24 on the duration itself is rounded when converted to `float`, and the interval can be off by far more than a millisecond: 4294967294 ms over 3 steps gives 1431655808 instead of 1431655764. The same precondition sits on `Planner.SplitFade` and on the commands, through `Fade.CommandReady`. Line 110 needs no bound. Its float quotient is usually not exact (100/3 is not a float), but both operands are small integers (abs(b) at most 100 and the divisor below abs(b)), so its truncation equals the truncated integer quotient.
- Planner.SplitFade: for durations of 1..9 ms the source divides by zero at line 110 (a float infinity converted to int). The model uses a step change of 0 there. The plan has no steps, so the value is never used.
- Fade.FadeTo: requires a brightness in 0..100, as the interface expects of callers. Out-of-range `fade_to` arguments and the `uint8_t` truncation of the argument at line 84 are not modelled.
- Pwm.MapRange: `map` (line 157) is a platform function that src/Fade.h does not define. The model assumes the truncating integer definition (x - in_min) * (out_max - out_min) / (in_max - in_min) + out_min, as in the reference Arduino core. A platform whose `map` rounds would write slightly different duty values.
- The `-1` "use global duration" sentinel is `Option.None`. An explicit duration of 4294967295, which the source also reads as the sentinel, is not singled out.
- `_num_steps` and `_current_steps` are `uint32_t` and `global_duration` is `unsigned long`. They are unbounded naturals here. Step counts never exceed 100, and every command requires a resolved duration below 2^24 ms, so the width of `global_duration` never matters.
- Compile-time overrides of the three constants (lines 11-24), the include guards, the destructor, and the commented-out `Serial.printf` lines are not modelled. The constants are fixed at 100, 1024 and 10.

=== FILE: arith.dfy ===
/** Facts about multiplication and division by a positive number that the
    linear map and the step planner rely on. */
module Arith {
  /** Multiplying by a positive factor preserves order. */
  lemma MulMonotone(x: int, y: int, d: int)
    requires x <= y && 0 < d
    ensures x * d <= y * d
  {
    var k := y - x;
    assert y * d == x * d + k * d;
  }

  /** Quotient uniqueness for a positive divisor. */
  lemma DivIsUnique(a: int, d: int, q: int)
    requires 0 < d
    requires q * d <= a < q * d + d
    ensures a / d == q
  {
    var r := a / d;
    assert a == r * d + a % d;
    if r < q {
      MulMonotone(r + 1, q, d);
    } else if r > q {
      MulMonotone(q + 1, r, d);
    }
  }

  /** The quotient of a natural number brackets it between two multiples of
      the divisor. */
  lemma DivBounds(a: nat, t: int)
    requires 0 < t
    ensures a / t * t <= a < a / t * t + t
  {
    assert a == a / t * t + a % t;
  }
}

=== FILE: convergence.dfy ===
/** What repeated ticks do with a plan: they never change a completed plan,
    they complete any plan within its remaining step count plus one when they
    come far enough apart, and along the way every brightness a plan writes
    lies between the brightness it started from and its target. */
module Convergence {
  import opened Options
  import opened Arith
  import opened Pwm
  import opened Planner
  import opened Fade

  /** Each clock reading is no earlier than the one before it; the first is
      no earlier than `from`. */
  predicate Chronological(from: nat, nows: seq<nat>) {
    && (|nows| > 0 ==> from <= nows[0])
    && forall i :: 0 < i < |nows| ==> nows[i - 1] <= nows[i]
  }

  /** Each clock reading is more than `gap` after the one before it; the first
      is more than `gap` after `from`. */
  predicate Spaced(from: nat, gap: nat, nows: seq<nat>) {
    && (|nows| > 0 ==> from + gap < nows[0])
    && forall i :: 0 < i < |nows| ==> nows[i - 1] + gap < nows[i]
  }

  /** Ticks at the given clock readings, in order. */
  function Run(s: FadeState, nows: seq<nat>): (r: FadeState)
    requires Chronological(s.fadeTimer, nows)
    ensures s.fadeDone ==> r == s
    ensures Valid(s) ==> Valid(r)
    ensures r.pin == s.pin && r.state == s.state && r.target == s.target && r.previous == s.previous
    ensures r.numSteps == s.numSteps && r.delta == s.delta && r.deltaTime == s.deltaTime
    ensures s.written <= r.written && |r.written| <= |s.written| + |nows|
    decreases |nows|
  {
    if |nows| == 0 then
      s
    else
      var next := HandleFade(s, nows[0]);
      assert Chronological(next.fadeTimer, nows[1..]) by {
        assert forall i :: 1 <= i < |nows| ==> nows[i - 1] <= nows[i];
      }
      Run(next, nows[1..])
  }

  /** is_fading reports exactly whether a tick can still act: a channel that
      is not fading is left unchanged by every tick, and one that is fading
      is changed by a tick that comes more than the interval after its last
      step, either by a step or by the final write. */
  lemma FadingMeansTickActs(s: FadeState, now: nat)
    requires s.fadeTimer <= now
    ensures !IsFading(s) ==> HandleFade(s, now) == s
    ensures IsFading(s) && s.currentSteps <= s.numSteps ==> HandleFade(s, s.fadeTimer + s.deltaTime + 1) != s
  {
  }

  /** Ticks spaced more than `gap` apart are in particular in order. */
  lemma SpacedIsChronological(from: nat, gap: nat, nows: seq<nat>)
    requires Spaced(from, gap, nows)
    ensures Chronological(from, nows)
  {
  }

  /** The number of ticks a plan still needs: none once done, otherwise one
      per remaining step plus the final write. */
  function Remaining(s: FadeState): int {
    if s.fadeDone then 0 else s.numSteps - s.currentSteps + 1
  }

  /** Convergence: on a valid pin, ticks that each come more than the plan's
      interval after the previous one complete the plan within Remaining(s)
      ticks (at most numSteps + 1), and the brightness is then exactly the
      target whatever truncation the per-step change carried. */
  lemma {:induction false} Converges(s: FadeState, nows: seq<nat>)
    requires Valid(s) && PinValid(s.pin)
    requires Spaced(s.fadeTimer, s.deltaTime, nows)
    requires |nows| >= Remaining(s)
    ensures Chronological(s.fadeTimer, nows)
    ensures var r := Run(s, nows); !IsFading(r) && r.current == r.target == s.target
    decreases |nows|
  {
    SpacedIsChronological(s.fadeTimer, s.deltaTime, nows);
    if !s.fadeDone {
      var next := HandleFade(s, nows[0]);
      assert Run(s, nows) == Run(next, nows[1..]);
      if s.currentSteps < s.numSteps {
        assert StepDue(s, nows[0]);
        assert Spaced(next.fadeTimer, next.deltaTime, nows[1..]) by {
          assert forall i :: 1 <= i < |nows| ==> nows[i - 1] + s.deltaTime < nows[i];
        }
        Converges(next, nows[1..]);
      }
    }
  }

  /** x lies between a and b, whichever of them is larger. */
  predicate Between(a: int, b: int, x: int) {
    (a <= x <= b) || (b <= x <= a)
  }

  /** The plan of `s` does not overshoot a fade that started at `start`: its
      steps together move at most the distance to the target, each in the
      direction of the target. */
  predicate PlanSound(s: FadeState, start: int) {
    && Abs(s.delta) * s.numSteps <= Abs(s.target - start)
    && (s.numSteps > 0 ==> s.delta != 0 && Sign(s.delta) == Sign(s.target - start))
  }

  /** `s` follows, undisturbed, a sound plan that started at `start`: once
      done it sits on the target, before that it has moved exactly its step
      count times the per-step change. */
  predicate Tracking(s: FadeState, start: int) {
    && 0 <= start <= BrightnessRange
    && PlanSound(s, start)
    && (s.fadeDone ==> s.current == s.target)
    && (!s.fadeDone ==> s.current == start + s.currentSteps * s.delta)
  }

  /** Taking k of the steps of a sound plan, k at most its step count, lands
      between the start and the target. */
  lemma {:induction false} PartialSumBetween(start: int, target: int, delta: int, steps: nat, k: nat)
    requires Abs(delta) * steps <= Abs(target - start)
    requires steps > 0 ==> delta != 0 && Sign(delta) == Sign(target - start)
    requires k <= steps
    ensures Between(start, target, start + k * delta)
  {
    if k > 0 {
      MulMonotone(k, steps, Abs(delta));
      if delta > 0 {
        assert Abs(delta) * k == k * delta;
        assert 0 <= k * delta;
      } else {
        assert Abs(delta) * k == -(k * delta);
        assert k * delta <= 0;
      }
    }
  }

  /** A state that is tracking a plan lies between the plan's start and its
      target. */
  lemma TrackingBetween(s: FadeState, start: int)
    requires Valid(s) && Tracking(s, start)
    ensures Between(start, s.target, s.current)
  {
    if !s.fadeDone {
      PartialSumBetween(start, s.target, s.delta, s.numSteps, s.currentSteps);
    }
  }

  /** One tick keeps a state on its plan: a step moves exactly one per-step
      change (no byte wrap-around and no clamping can occur, since the new
      value is between start and target), and the final write lands on the
      target. */
  lemma TickKeepsTracking(s: FadeState, start: int, now: nat)
    requires Valid(s) && PinValid(s.pin) && Tracking(s, start)
    requires s.fadeTimer <= now
    ensures Tracking(HandleFade(s, now), start)
  {
    var r := HandleFade(s, now);
    if StepDue(s, now) {
      var k := s.currentSteps;
      var v := start + (k + 1) * s.delta;
      assert v == s.current + s.delta by {
        assert (k + 1) * s.delta == k * s.delta + s.delta;
      }
      PartialSumBetween(start, s.target, s.delta, s.numSteps, k + 1);
      assert 0 <= v <= BrightnessRange;
      assert ToByte(s.current + s.delta) == v;
      assert r.current == v;
      assert r.currentSteps == k + 1 && !r.fadeDone;
    } else if !s.fadeDone && s.currentSteps >= s.numSteps {
      assert r.current == s.target;
    }
  }

  /** Ticks keep a state on its plan, so every state along the way lies
      between the plan's start and its target. */
  lemma {:induction false} RunKeepsTracking(s: FadeState, start: int, nows: seq<nat>)
    requires Valid(s) && PinValid(s.pin) && Tracking(s, start)
    requires Chronological(s.fadeTimer, nows)
    ensures Tracking(Run(s, nows), start)
    ensures Between(start, s.target, Run(s, nows).current)
    decreases |nows|
  {
    if |nows| == 0 {
      TrackingBetween(s, start);
    } else {
      var next := HandleFade(s, nows[0]);
      TickKeepsTracking(s, start, nows[0]);
      assert Run(s, nows) == Run(next, nows[1..]);
      RunKeepsTracking(next, start, nows[1..]);
    }
  }

  /** A launched plan is sound and starts on its plan, at the brightness of
      the command. */
  lemma LaunchTracks(s: FadeState, d: nat)
    requires Consistent(s) && PinValid(s.pin)
    requires 0 < d < ExactDurationLimit && s.target != s.current
    ensures Valid(Launch(s, d)) && Tracking(Launch(s, d), s.current)
  {
  }

  /** The planned path, including its immediate tick, starts on its plan
      from the brightness it was called with. */
  lemma StartPlanTracking(s: FadeState, d: nat, now: nat)
    requires Consistent(s) && PinValid(s.pin)
    requires s.fadeTimer <= now && 0 < d < ExactDurationLimit && s.target != s.current
    ensures Tracking(StartPlan(s, d, now), s.current)
  {
    LaunchTracks(s, d);
    TickKeepsTracking(Launch(s, d), s.current, now);
  }

  /** A planned (non-instant) fade starts tracking from the brightness at the
      time of the command. */
  lemma PlanStartsTracking(s: FadeState, duration: Option<nat>, now: nat)
    requires Consistent(s) && PinValid(s.pin)
    requires CommandReady(s, duration, now) && !Instant(s, duration)
    ensures Tracking(StartFade(s, duration, now), s.current)
  {
    StartPlanTracking(s, Resolve(s.globalDuration, duration), now);
  }

  /** No overshoot: after a planned fade is started, every brightness that any
      later sequence of ticks produces lies between the brightness the fade
      started from and its target. */
  lemma FadeNeverOvershoots(s: FadeState, duration: Option<nat>, now: nat, nows: seq<nat>)
    requires Consistent(s) && PinValid(s.pin)
    requires CommandReady(s, duration, now) && !Instant(s, duration)
    requires Chronological(StartFade(s, duration, now).fadeTimer, nows)
    ensures Between(s.current, s.target, Run(StartFade(s, duration, now), nows).current)
  {
    PlanStartsTracking(s, duration, now);
    RunKeepsTracking(StartFade(s, duration, now), s.current, nows);
  }
}

=== FILE: fade.dfy ===
/** The fade controller of one LED channel: its state, its commands, the step
    planner they call, the periodic tick that consumes the plan, and the PWM
    write. Every operation is a pure function from the old state to the new
    one. The clock reading is a parameter `now`; every value written to the pin
    is appended to the state's `written` log. */
module Fade {
  import opened Options
  import opened Pwm
  import opened Planner

  /** The value `previous` falls back to when neither the new target nor the
      old `previous` is nonzero. */
  const FallbackBrightness: Byte := 100

  /** The fields of one channel. */
  datatype FadeState = FadeState(
    pin: Byte,                  // NoPin unless the constructor accepted the pin
    inverted: bool,             // complement the duty value before writing
    state: bool,                // logical on/off flag
    current: Byte,              // brightness last written
    previous: Byte,             // last nonzero target, restored by On and Toggle
    target: Byte,               // brightness the current plan converges to
    delta: int,                 // signed brightness change per step
    globalDuration: nat,        // duration of commands issued without one
    fadeTimer: nat,             // clock reading at the last step
    deltaTime: nat,             // a step needs strictly more time than this since the last
    numSteps: nat,              // steps in the current plan
    currentSteps: nat,          // steps of the plan taken so far
    fadeDone: bool,             // the plan has been completed by its final write
    gamma: Option<int -> int>,  // gamma callback; None is the empty callback
    written: seq<int>)          // every duty value written to the pin, oldest first

  /** Facts that hold of every state, including the one a command builds right
      after it sets `state` and `target` and before it calls the planner. */
  predicate Consistent(s: FadeState) {
    && s.current <= BrightnessRange
    && s.target <= BrightnessRange
    && 0 < s.previous <= BrightnessRange
    && s.state == (s.target != 0)
    && s.currentSteps <= s.numSteps
    && (!PinValid(s.pin) ==> s.fadeDone && s.current == 0 && s.written == [])
  }

  /** The invariant of every state an operation returns: on a valid pin a
      completed plan has reached its target, and a nonzero target is
      remembered as `previous`. */
  predicate Valid(s: FadeState) {
    && Consistent(s)
    && (PinValid(s.pin) && s.fadeDone ==> s.current == s.target)
    && (PinValid(s.pin) && s.target != 0 ==> s.previous == s.target)
  }

  /** is_fading: a plan is in progress. */
  function IsFading(s: FadeState): (r: bool)
    ensures Valid(s) && PinValid(s.pin) && !r ==> s.current == s.target
    ensures Consistent(s) && !PinValid(s.pin) ==> !r
  {
    !s.fadeDone
  }

  /** The fields' initial values. */
  function Initial(): (s: FadeState)
    ensures Valid(s) && !IsFading(s)
    ensures !PinValid(s.pin) && s.current == 0 && s.target == 0 && s.written == []
    ensures s.pin == NoPin && s.previous == FallbackBrightness && !s.state
    ensures s.globalDuration == 0 && s.fadeTimer == 0 && !s.inverted && s.gamma.None?
  {
    FadeState(NoPin, false, false, 0, FallbackBrightness, 0, 0, 0, 0, 0, 0, 0, true, None, [])
  }

  /** The constructor. An accepted pin records the pin, its polarity and the
      default gamma callback (None when the library is built without gamma
      correction); a refused pin leaves the channel in its initial state. */
  function Construct(pin: Byte, inverted: bool, defaultGamma: Option<int -> int>): (s: FadeState)
    ensures Valid(s) && !IsFading(s) && s.current == 0 && s.written == []
    ensures PinValid(s.pin) <==> PinValid(pin)
    ensures PinValid(pin) ==> s.pin == pin && s.inverted == inverted && s.gamma == defaultGamma
    ensures !PinValid(pin) ==> s == Initial()
    ensures s.previous == FallbackBrightness && !s.state && s.target == 0
    ensures s.globalDuration == 0 && s.fadeTimer == 0
  {
    if PinValid(pin) then Initial().(pin := pin, inverted := inverted, gamma := defaultGamma)
    else Initial()
  }

  /** set_global_duration: stores the duration and changes nothing else. */
  function SetGlobalDuration(s: FadeState, duration: nat): (r: FadeState)
    ensures r.globalDuration == duration
    ensures r.(globalDuration := s.globalDuration) == s
    ensures Valid(s) ==> Valid(r)
  {
    s.(globalDuration := duration)
  }

  /** set_gamma_callback: an empty callback is ignored and the old one kept. */
  function SetGammaCallback(s: FadeState, callback: Option<int -> int>): (r: FadeState)
    ensures callback.None? ==> r == s
    ensures callback.Some? ==> r.gamma == callback
    ensures r.(gamma := s.gamma) == s
    ensures Valid(s) ==> Valid(r)
  {
    if callback.Some? then s.(gamma := callback) else s
  }

  /** _set_pwm: on a valid pin and a value other than the current brightness,
      clamp the value into the brightness range, make it the current
      brightness, and write its duty value; otherwise do nothing. */
  function SetPwm(s: FadeState, v: Byte): (r: FadeState)
    ensures !PinValid(s.pin) || v == s.current ==> r == s
    ensures PinValid(s.pin) && v != s.current ==>
      && r.current == Constrain(v)
      && r.written == s.written + [PwmOutput(r.current, s.gamma, s.inverted)]
    ensures v <= BrightnessRange && PinValid(s.pin) ==> r.current == v
    ensures r == s.(current := r.current, written := r.written)
  {
    if PinValid(s.pin) && v != s.current then
      var c := Constrain(v);
      s.(current := c, written := s.written + [PwmOutput(c, s.gamma, s.inverted)])
    else
      s
  }

  /** The brightness the final write of a plan sets: 0 when off, the target
      when on; since a consistent state is on exactly when its target is
      nonzero, that is always the target. */
  function FinalBrightness(s: FadeState): (b: Byte)
    ensures !s.state ==> b == 0
    ensures Consistent(s) ==> b == s.target && b <= BrightnessRange
  {
    if s.state then s.target else 0
  }

  /** The condition under which a tick takes a step. */
  function StepDue(s: FadeState, now: nat): (due: bool)
    requires s.fadeTimer <= now
    ensures due ==> IsFading(s) && s.currentSteps < s.numSteps && now >= s.fadeTimer + s.deltaTime + 1
    ensures now <= s.fadeTimer + s.deltaTime ==> !due
    ensures IsFading(s) && s.currentSteps < s.numSteps && now > s.fadeTimer + s.deltaTime ==> due
  {
    !s.fadeDone && s.currentSteps < s.numSteps && now - s.fadeTimer > s.deltaTime
  }

  /** _handle_fade, the tick. When a step is due it records the time, writes
      the current brightness plus the step (reduced to a byte, as the
      parameter of _set_pwm is) and counts the step; when the plan's steps are
      used up it writes the final brightness exactly, marks the plan done and
      resets the step counter; otherwise it does nothing. The clock is assumed
      not to have wrapped since the last step. */
  function HandleFade(s: FadeState, now: nat): (r: FadeState)
    requires s.fadeTimer <= now
    ensures s.fadeDone ==> r == s
    ensures !s.fadeDone && s.currentSteps < s.numSteps && !StepDue(s, now) ==> r == s
    ensures StepDue(s, now) ==>
      && r.currentSteps == s.currentSteps + 1 && r.fadeTimer == now && !r.fadeDone
      && r.current == SetPwm(s, ToByte(s.current + s.delta)).current
      && r.written == SetPwm(s, ToByte(s.current + s.delta)).written
    ensures !s.fadeDone && s.currentSteps >= s.numSteps ==>
      && r.fadeDone && r.currentSteps == 0 && r.fadeTimer == s.fadeTimer
      && (PinValid(s.pin) && FinalBrightness(s) <= BrightnessRange ==> r.current == FinalBrightness(s))
      && r.written == SetPwm(s, FinalBrightness(s)).written
    ensures r.fadeTimer == s.fadeTimer || r.fadeTimer == now
    ensures s.written <= r.written && |r.written| <= |s.written| + 1
    ensures r == s.(current := r.current, written := r.written, fadeTimer := r.fadeTimer,
                    currentSteps := r.currentSteps, fadeDone := r.fadeDone)
    ensures Valid(s) ==> Valid(r)
  {
    if StepDue(s, now) then
      SetPwm(s.(fadeTimer := now), ToByte(s.current + s.delta)).(currentSteps := s.currentSteps + 1)
    else if !s.fadeDone && s.currentSteps >= s.numSteps then
      SetPwm(s, FinalBrightness(s)).(fadeDone := true, currentSteps := 0)
    else
      s
  }

  /** loop: one tick. */
  function Loop(s: FadeState, now: nat): (r: FadeState)
    requires s.fadeTimer <= now
    ensures s.fadeDone ==> r == s
    ensures Valid(s) ==> Valid(r)
  {
    HandleFade(s, now)
  }

  /** The duration a command runs with: its own, or the global one when it
      gives none. */
  function Resolve(globalDuration: nat, duration: Option<nat>): (d: nat)
    ensures duration.Some? ==> d == duration.value
    ensures duration.None? ==> d == globalDuration
  {
    duration.GetOr(globalDuration)
  }

  /** What the planner records as `previous`: the new target when it is
      nonzero, else the old `previous` when that is nonzero, else 100. */
  function Refresh(target: Byte, previous: Byte): (p: Byte)
    ensures p != 0
    ensures target != 0 ==> p == target
    ensures target == 0 && previous != 0 ==> p == previous
    ensures target == 0 && previous == 0 ==> p == FallbackBrightness
  {
    if target != 0 then target else if previous != 0 then previous else FallbackBrightness
  }

  /** The first thing the planner does on an accepted pin: remember the
      brightness to come back to. A consistent state stays consistent, and a
      nonzero target is now the remembered brightness. */
  function Remember(s: FadeState): (r: FadeState)
    ensures r == s.(previous := Refresh(s.target, s.previous))
    ensures r.written == s.written && r.target == s.target && r.current == s.current
    ensures r.gamma == s.gamma && r.inverted == s.inverted && r.pin == s.pin
    ensures Consistent(s) ==> Consistent(r) && (r.target != 0 ==> r.previous == r.target)
  {
    s.(previous := Refresh(s.target, s.previous))
  }

  /** Whether the planner moves to the target at once rather than in steps. */
  predicate Instant(s: FadeState, duration: Option<nat>) {
    Resolve(s.globalDuration, duration) == 0 || s.target == s.current
  }

  /** What a freshly started plan promises for a brightness change `b` over
      `d` milliseconds, commanded at `now` with the last step at `timer`: the
      step count is min(abs(b), d / 10), the interval is at least 10 ms, the
      steps together move at most abs(b) and each in the direction of b, the
      plan is done exactly when it has no steps, and the immediate tick took
      a step exactly when one was due. */
  predicate Planned(r: FadeState, b: int, d: nat, timer: nat, now: nat) {
    && r.numSteps == Min(Abs(b), d / MinTimeDivision)
    && r.deltaTime >= MinTimeDivision
    && Abs(r.delta) * r.numSteps <= Abs(b)
    && (r.numSteps > 0 ==> r.delta != 0 && Sign(r.delta) == Sign(b))
    && (r.fadeDone <==> r.numSteps == 0)
    && r.currentSteps <= 1
    && (r.currentSteps == 1 <==> r.numSteps > 0 && now > timer + r.deltaTime)
    && (b != 0 && 0 < d < ExactDurationLimit ==>
          r.delta == SplitFade(b, d).delta && r.deltaTime == SplitFade(b, d).interval)
  }

  /** The log after the instant path writes `target` at brightness
      `current`: one more duty value, the pipeline output for the target,
      unless the brightness is already the target. */
  function InstantLog(written: seq<int>, target: int, current: int, gamma: Option<int -> int>, inverted: bool): seq<int>
    requires 0 <= target <= BrightnessRange
  {
    written + if target == current then [] else [PwmOutput(target, gamma, inverted)]
  }

  /** The instant path of the planner on an accepted pin: `previous` is
      refreshed and the target is written at once; the plan fields, the done
      flag and the step count are left as they are. */
  function StartInstant(s: FadeState): (r: FadeState)
    requires PinValid(s.pin)
    ensures r.pin == s.pin && r.inverted == s.inverted && r.state == s.state && r.target == s.target
    ensures r.previous == Refresh(s.target, s.previous) && r.globalDuration == s.globalDuration && r.gamma == s.gamma
    ensures r.fadeTimer == s.fadeTimer && r.fadeDone == s.fadeDone && r.currentSteps == s.currentSteps
    ensures r.numSteps == s.numSteps && r.delta == s.delta && r.deltaTime == s.deltaTime
    ensures s.written <= r.written && |r.written| <= |s.written| + 1
    ensures s.target <= BrightnessRange ==>
      && r.current == s.target
      && r.written == InstantLog(s.written, s.target, s.current, s.gamma, s.inverted)
    ensures Consistent(s) ==> Valid(r)
  {
    SetPwm(Remember(s), s.target)
  }

  /** The state the planned path hands to its immediate tick: `previous`
      refreshed, the plan fields set to the split of the fade over `d`
      milliseconds, no step taken yet and the plan not done. */
  function Launch(s: FadeState, d: nat): (r: FadeState)
    requires PinValid(s.pin) && 0 < d < ExactDurationLimit && s.target != s.current
    ensures var p := SplitFade(s.target - s.current, d);
      r.delta == p.delta && r.deltaTime == p.interval && r.numSteps == p.steps
    ensures r.currentSteps == 0 && IsFading(r)
    ensures r == Remember(s).(delta := r.delta, deltaTime := r.deltaTime, numSteps := r.numSteps,
                              currentSteps := 0, fadeDone := false)
    ensures Consistent(s) ==> Valid(r)
  {
    var p := SplitFade(s.target - s.current, d);
    Remember(s).(delta := p.delta, deltaTime := p.interval, numSteps := p.steps,
                 currentSteps := 0, fadeDone := false)
  }

  /** The planned path of the planner on an accepted pin: `previous` is
      refreshed, the plan fields become the split of the fade over `d`
      milliseconds, the step count restarts, and the first tick runs at once.
      Only `previous`, the brightness, the log, the step time and the plan
      fields change. */
  function StartPlan(s: FadeState, d: nat, now: nat): (r: FadeState)
    requires PinValid(s.pin) && s.fadeTimer <= now
    requires 0 < d < ExactDurationLimit && s.target != s.current
    ensures r.pin == s.pin && r.inverted == s.inverted && r.state == s.state && r.target == s.target
    ensures r.previous == Refresh(s.target, s.previous) && r.globalDuration == s.globalDuration && r.gamma == s.gamma
    ensures r.fadeTimer == s.fadeTimer || r.fadeTimer == now
    ensures s.written <= r.written && |r.written| <= |s.written| + 1
    ensures Planned(r, s.target - s.current, d, s.fadeTimer, now)
    ensures Consistent(s) ==> Valid(r)
  {
    HandleFade(Launch(s, d), now)
  }

  /** _start_fade, the planner. On a refused pin it does nothing. Otherwise it
      refreshes `previous`; then, for a zero duration or a target equal to the
      current brightness, it writes the target at once and leaves the plan
      fields alone (a plan in flight keeps running); else it replaces the plan
      with the split of the fade, restarts the step count, and ticks once. */
  function StartFade(s: FadeState, duration: Option<nat>, now: nat): (r: FadeState)
    requires s.fadeTimer <= now
    requires Resolve(s.globalDuration, duration) < ExactDurationLimit
    ensures !PinValid(s.pin) ==> r == s
    ensures PinValid(s.pin) ==> r.previous == Refresh(s.target, s.previous)
    ensures r.pin == s.pin && r.inverted == s.inverted && r.state == s.state && r.target == s.target
    ensures r.globalDuration == s.globalDuration && r.gamma == s.gamma
    ensures r.fadeTimer == s.fadeTimer || r.fadeTimer == now
    ensures s.written <= r.written && |r.written| <= |s.written| + 1
    ensures PinValid(s.pin) && Instant(s, duration) ==>
      && r.fadeDone == s.fadeDone && r.currentSteps == s.currentSteps && r.numSteps == s.numSteps
      && r.delta == s.delta && r.deltaTime == s.deltaTime && r.fadeTimer == s.fadeTimer
      && (s.target <= BrightnessRange ==>
            && r.current == s.target
            && r.written == InstantLog(s.written, s.target, s.current, s.gamma, s.inverted))
    ensures PinValid(s.pin) && !Instant(s, duration) ==>
      Planned(r, s.target - s.current, Resolve(s.globalDuration, duration), s.fadeTimer, now)
    ensures Consistent(s) ==> Valid(r)
  {
    if !PinValid(s.pin) then
      s
    else
      var d := Resolve(s.globalDuration, duration);
      if d > 0 && s.target != s.current then
        StartPlan(s, d, now)
      else
        StartInstant(s)
  }

  /** Preconditions every command shares: the clock has not gone back past the
      last step, and the resolved duration is in the exactly modelled range. */
  predicate CommandReady(s: FadeState, duration: Option<nat>, now: nat) {
    s.fadeTimer <= now && Resolve(s.globalDuration, duration) < ExactDurationLimit
  }

  /** on: fade to the last nonzero brightness. */
  function On(s: FadeState, duration: Option<nat>, now: nat): (r: FadeState)
    requires CommandReady(s, duration, now)
    ensures r.state && r.target == s.previous
    ensures Valid(s) ==> Valid(r) && r.target != 0 && r.previous == s.previous
  {
    StartFade(s.(state := true, target := s.previous), duration, now)
  }

  /** off: fade to zero; `previous` keeps the brightness to come back to. */
  function Off(s: FadeState, duration: Option<nat>, now: nat): (r: FadeState)
    requires CommandReady(s, duration, now)
    ensures !r.state && r.target == 0
    ensures Valid(s) ==> Valid(r) && r.previous == s.previous
  {
    StartFade(s.(state := false, target := 0), duration, now)
  }

  /** toggle: flip the logical state and fade to `previous` or to zero. */
  function Toggle(s: FadeState, duration: Option<nat>, now: nat): (r: FadeState)
    requires CommandReady(s, duration, now)
    ensures r.state == !s.state
    ensures r.target == if r.state then s.previous else 0
    ensures Valid(s) ==> Valid(r) && r.previous == s.previous
  {
    var on := !s.state;
    StartFade(s.(state := on, target := if on then s.previous else 0), duration, now)
  }

  /** fade_to: fade to an explicit brightness in the brightness range; the
      logical state is on exactly when that brightness is nonzero. */
  function FadeTo(s: FadeState, brightness: Byte, duration: Option<nat>, now: nat): (r: FadeState)
    requires brightness <= BrightnessRange
    requires CommandReady(s, duration, now)
    ensures r.target == brightness && r.state == (brightness != 0)
    ensures Valid(s) ==> Valid(r)
    ensures PinValid(s.pin) && brightness != 0 ==> r.previous == brightness
    ensures Valid(s) && brightness == 0 ==> r.previous == s.previous
  {
    StartFade(s.(state := brightness != 0, target := brightness), duration, now)
  }
}

=== FILE: options.dfy ===
/** Optional values. The fader uses them for the two "absent" inputs of its
    interface: a command issued without a duration, and an empty gamma callback. */
module Options {

  datatype Option<T> = None | Some(value: T) {

    /** The encapsulated value, or `default` when there is none. */
    function GetOr(default: T): (r: T)
      ensures Some? ==> r == value
      ensures None? ==> r == default
    {
      match this
      case Some(v) => v
      case None => default
    }
  }
}

=== FILE: planner.dfy ===
/** The step-planning arithmetic of the fader: how a brightness change `b`
    over `duration` milliseconds is split into a number of equal steps, the
    brightness change of each step, and the minimum interval between steps. */
module Planner {
  import opened Arith

  /** The shortest interval, in milliseconds, between two PWM updates. */
  const MinTimeDivision: int := 10

  /** Durations below this bound (2^24 ms) are those for which the source's
      single-precision quotient `duration / |b|`, truncated to an integer,
      equals the exact truncated quotient. Both operands are exactly
      representable below 2^24, and the rounding of the quotient
      q = duration / |b| moves it by at most q * 2^-24 < 1/|b|, while a
      quotient that is not an integer lies at least 1/|b| below the next
      integer; so truncation never crosses an integer. */
  const ExactDurationLimit: int := 0x100_0000

  function Abs(x: int): nat {
    if x < 0 then -x else x
  }

  function Sign(x: int): int {
    if x > 0 then 1 else if x < 0 then -1 else 0
  }

  function Min(a: int, b: int): int {
    if a <= b then a else b
  }

  /** Division truncating toward zero, as the conversion of a floating-point
      quotient to an integer does: the magnitude is |b| / t and the sign is
      that of b. */
  function TruncDiv(b: int, t: int): (q: int)
    requires 0 < t
    ensures Abs(q) * t <= Abs(b) < Abs(q) * t + t
    ensures q == 0 || Sign(q) == Sign(b)
  {
    var m := Abs(b) / t;
    DivBounds(Abs(b), t);
    assert Abs(m) == Abs(-m) == m;
    if b >= 0 then m else -m
  }

  /** TruncDiv is the only value that meets its contract, so the contract is a
      complete reference definition of the truncated quotient. */
  lemma TruncDivUnique(b: int, t: int, q: int)
    requires 0 < t
    requires Abs(q) * t <= Abs(b) < Abs(q) * t + t
    requires q == 0 || Sign(q) == Sign(b)
    ensures q == TruncDiv(b, t)
  {
    DivIsUnique(Abs(b), t, Abs(q));
  }

  /** A fade plan: the signed brightness change per step, the minimum interval
      between steps, and the number of steps. */
  datatype StepPlan = StepPlan(delta: int, interval: nat, steps: nat)

  /** Splits a fade of `b` brightness units over `duration` milliseconds.
      With more brightness units than 10 ms slots the plan steps every 10 ms
      by the truncated quotient; otherwise it steps by one unit and stretches
      the interval. When the duration is under 10 ms there are no slots and no
      steps, and the per-step change (a division by zero in the source, never
      used) is taken to be 0. */
  function SplitFade(b: int, duration: nat): (p: StepPlan)
    requires b != 0 && 0 < duration < ExactDurationLimit
    ensures p.steps == Min(Abs(b), duration / MinTimeDivision)
    ensures p.interval >= MinTimeDivision
    ensures p.steps > 0 ==> p.delta != 0 && Sign(p.delta) == Sign(b)
    ensures Abs(p.delta) * p.steps <= Abs(b)
    ensures p.steps > 0 ==> Abs(b) < Abs(p.delta) * p.steps + p.steps
    ensures p.interval * p.steps <= duration
  {
    var t := duration / MinTimeDivision;
    if Abs(b) > t then
      StepPlan(if t == 0 then 0 else TruncDiv(b, t), MinTimeDivision, t)
    else
      IntervalAtLeastTen(Abs(b), duration);
      StepPlan(if b > 0 then 1 else -1, duration / Abs(b), Abs(b))
  }

  /** Stretching the interval never makes it shorter than the minimum: when
      there are at least as many 10 ms slots as brightness units,
      duration / units is at least 10. */
  lemma IntervalAtLeastTen(units: int, duration: nat)
    requires 0 < units <= duration / MinTimeDivision
    ensures duration / units >= MinTimeDivision
    ensures duration / units * units <= duration
  {
    var q := duration / units;
    assert duration == q * units + duration % units;
    MulMonotone(units, duration / MinTimeDivision, MinTimeDivision);
    if q < MinTimeDivision {
      MulMonotone(q + 1, MinTimeDivision, units);
    }
  }

  /** The two branches of the split, as the planner states them: a fast fade
      steps every 10 ms by at least one unit; a slow fade steps by exactly one
      unit, in the direction of b, every duration / |b| ms. */
  lemma SplitFadeBranches(b: int, duration: nat)
    requires b != 0 && 0 < duration < ExactDurationLimit
    ensures var p := SplitFade(b, duration);
      && (Abs(b) > duration / MinTimeDivision ==>
            p.interval == MinTimeDivision && p.steps == duration / MinTimeDivision
            && (p.steps > 0 ==> Abs(p.delta) >= 1))
      && (Abs(b) <= duration / MinTimeDivision ==>
            p.delta == Sign(b) && p.steps == Abs(b)
            && p.interval == duration / Abs(b) && p.interval >= MinTimeDivision)
  {
  }

  /** A duration of 1..9 ms leaves no 10 ms slot: the plan has no steps and the
      fade is completed by the final write alone. */
  lemma ShortDurationHasNoSteps(b: int, duration: nat)
    requires b != 0 && 0 < duration < MinTimeDivision
    ensures SplitFade(b, duration).steps == 0
  {
  }

  /** The time a plan takes at its minimum pace falls short of the requested
      duration by less than one interval of the fast branch (10 ms) or one
      step count of the slow branch. */
  lemma SplitFadeTiming(b: int, duration: nat)
    requires b != 0 && 0 < duration < ExactDurationLimit
    ensures var p := SplitFade(b, duration);
      duration < p.interval * p.steps + if Abs(b) > duration / MinTimeDivision then MinTimeDivision else p.steps
  {
    var p := SplitFade(b, duration);
    var t := duration / MinTimeDivision;
    assert duration == t * MinTimeDivision + duration % MinTimeDivision;
    if Abs(b) <= t {
      var q := duration / Abs(b);
      assert duration == q * Abs(b) + duration % Abs(b);
    }
  }
}

=== FILE: pwm.dfy ===
/** The output stage of the fader: pin validation and the PWM pipeline that
    turns a brightness level into the duty value written to the pin
    (clamp, linear map from the brightness range to the PWM range, gamma
    correction, polarity inversion). */
module Pwm {
  import opened Options
  import opened Arith

  /** Brightness levels run over 0..BrightnessRange. */
  const BrightnessRange: int := 100

  /** Duty values run over 0..PwmRange. */
  const PwmRange: int := 1024

  /** An unsigned 8-bit value: the type of the pin number and of every
      brightness field. */
  type Byte = x: int | 0 <= x < 256

  /** The pin number of a channel whose constructor refused its pin: the
      field's initialiser is -1 converted to an unsigned byte. */
  const NoPin: Byte := 255

  /** Conversion of an int to an unsigned byte: C++ reduces modulo 256, which
      for negative values is Dafny's Euclidean remainder. */
  function ToByte(x: int): (r: Byte)
    ensures (x - r) % 256 == 0
    ensures 0 <= x < 256 ==> r == x
  {
    x % 256
  }

  /** The accepted pin numbers are 1..16; in particular the placeholder pin
      of an unconfigured channel and pin 0 are refused. */
  function PinValid(pin: Byte): (ok: bool)
    ensures ok ==> pin != NoPin && 0 < pin <= 16
    ensures !ok ==> pin == 0 || 16 < pin
  {
    0 < pin <= 16
  }

  /** constrain(v, 0, BrightnessRange) on an unsigned argument. */
  function Constrain(v: Byte): (r: int)
    ensures 0 <= r <= BrightnessRange
    ensures v <= BrightnessRange ==> r == v
    ensures v > BrightnessRange ==> r == BrightnessRange
  {
    if v > BrightnessRange then BrightnessRange else v
  }

  /** map(b, 0, BrightnessRange, 0, PwmRange): integer division of
      b * PwmRange by BrightnessRange (b is never negative here, so C's
      truncating division and Dafny's agree). */
  function MapRange(b: int): (p: int)
    requires 0 <= b <= BrightnessRange
    ensures 0 <= p <= PwmRange
    ensures p * BrightnessRange <= b * PwmRange < p * BrightnessRange + BrightnessRange
  {
    b * PwmRange / BrightnessRange
  }

  /** The brightness a duty value in the image of MapRange came from. */
  function BrightnessOf(p: int): int
    requires 0 <= p
  {
    (p * BrightnessRange + PwmRange - 1) / PwmRange
  }

  /** The gamma stage: the callback when one is set, the identity when the
      callback is empty. */
  function ApplyGamma(gamma: Option<int -> int>, x: int): (y: int)
    ensures gamma.None? ==> y == x
    ensures gamma.Some? ==> y == gamma.value(x)
  {
    match gamma
    case Some(g) => g(x)
    case None => x
  }

  /** The value written to the pin for a (clamped) brightness level. With
      the empty callback it stays in the PWM range, and the pin is fully off
      exactly at brightness 0 (100 on an inverted pin). */
  function PwmOutput(b: int, gamma: Option<int -> int>, inverted: bool): (p: int)
    requires 0 <= b <= BrightnessRange
    ensures gamma.None? ==> 0 <= p <= PwmRange
    ensures gamma.None? ==> (p == 0 <==> b == (if inverted then BrightnessRange else 0))
    ensures !inverted ==> p == ApplyGamma(gamma, MapRange(b))
    ensures inverted ==> p == PwmRange - ApplyGamma(gamma, MapRange(b))
  {
    var p := ApplyGamma(gamma, MapRange(b));
    if inverted then PwmRange - p else p
  }

  /** The linear map is undone by BrightnessOf: distinct brightness levels
      never collapse onto one duty value. */
  lemma MapRangeRoundTrip(b: int)
    requires 0 <= b <= BrightnessRange
    ensures BrightnessOf(MapRange(b)) == b
  {
    var p := MapRange(b);
    var n := p * BrightnessRange + PwmRange - 1;
    assert b * PwmRange <= n < b * PwmRange + PwmRange;
    DivIsUnique(n, PwmRange, b);
  }

  /** The linear map is strictly increasing, by at least ten duty units per
      brightness level. */
  lemma MapRangeIncreasing(b1: int, b2: int)
    requires 0 <= b1 < b2 <= BrightnessRange
    ensures MapRange(b1) + 10 <= MapRange(b2)
  {
    var p1, p2 := MapRange(b1), MapRange(b2);
    assert (b2 - b1) * PwmRange >= PwmRange;
    assert p2 * BrightnessRange - p1 * BrightnessRange > PwmRange - BrightnessRange;
    assert (p2 - p1) * BrightnessRange > 924;
  }

  /** With an empty callback and normal polarity the pipeline is the bare
      linear map: off, half and full brightness give 0, 512 and 1024. */
  lemma IdentityPipeline(b: int)
    requires 0 <= b <= BrightnessRange
    ensures PwmOutput(b, None, false) == MapRange(b)
    ensures PwmOutput(0, None, false) == 0
    ensures PwmOutput(50, None, false) == 512
    ensures PwmOutput(BrightnessRange, None, false) == PwmRange
  {
  }

  /** An inverted pin receives the complement, against the PWM range, of what
      a normal pin with the same callback receives. */
  lemma InvertedComplement(b: int, gamma: Option<int -> int>)
    requires 0 <= b <= BrightnessRange
    ensures PwmOutput(b, gamma, true) == PwmRange - PwmOutput(b, gamma, false)
    ensures gamma.None? ==> 0 <= PwmOutput(b, gamma, true) <= PwmRange
  {
  }
}

=== FILE: scenarios.dfy ===
/** Concrete call sequences on a channel built on pin 5 with normal
    polarity and an empty gamma callback. */
module Scenarios {
  import opened Options
  import opened Pwm
  import opened Fade
  import opened Convergence

  /** A channel on pin 5, normal polarity, empty gamma callback. */
  function Channel(): (s: FadeState)
    ensures Valid(s) && PinValid(s.pin) && s.current == 0 && !IsFading(s)
  {
    Construct(5, false, None)
  }

  /** fade_to(100, 1000) from dark: 100 units over 100 slots of 10 ms is the
      slow branch, one unit every 10 ms for 100 steps; at time 0 no step is
      due yet. */
  lemma SlowFadeToFull()
    ensures var r := FadeTo(Channel(), 100, Some(1000), 0);
      && r.numSteps == 100 && r.delta == 1 && r.deltaTime == 10
      && r.currentSteps == 0 && IsFading(r) && r.current == 0 && r.written == []
  {
  }

  /** The slow fade to full, ticked 101 times or more, each tick more than
      10 ms after the one before and the first after time 10, ends at full
      brightness with no fade in progress. */
  lemma SlowFadeToFullCompletes(nows: seq<nat>)
    requires Spaced(0, 10, nows) && |nows| >= 101
    ensures var r := FadeTo(Channel(), 100, Some(1000), 0);
      && Chronological(r.fadeTimer, nows)
      && Run(r, nows).current == 100 && !IsFading(Run(r, nows))
  {
    SlowFadeToFull();
    PlanCompletes(FadeTo(Channel(), 100, Some(1000), 0), nows);
  }

  /** A valid channel on a valid pin, at the start of a 100-step plan to full
      brightness with a 10 ms interval, completes it under ticks spaced more
      than 10 ms apart. */
  lemma PlanCompletes(r: FadeState, nows: seq<nat>)
    requires Valid(r) && PinValid(r.pin) && IsFading(r)
    requires r.fadeTimer == 0 && r.deltaTime == 10 && r.numSteps == 100 && r.currentSteps == 0
    requires r.target == 100
    requires Spaced(0, 10, nows) && |nows| >= 101
    ensures Chronological(r.fadeTimer, nows)
    ensures Run(r, nows).current == 100 && !IsFading(Run(r, nows))
  {
    Converges(r, nows);
  }

  /** fade_to(100, 100) from dark: 100 units over 10 slots is the fast branch,
      ten units every 10 ms for 10 steps. */
  lemma FastFadeToFull()
    ensures var r := FadeTo(Channel(), 100, Some(100), 0);
      && r.numSteps == 10 && r.delta == 10 && r.deltaTime == 10
      && r.currentSteps == 0 && IsFading(r)
  {
  }

  /** The first on() of a freshly built channel, whatever its pin, targets
      full brightness: the remembered brightness starts at 100. */
  lemma FirstOnTargetsFull(pin: Byte, inverted: bool, gamma: Option<int -> int>, d: Option<nat>, now: nat)
    requires CommandReady(Construct(pin, inverted, gamma), d, now)
    ensures var r := On(Construct(pin, inverted, gamma), d, now);
      r.state && r.target == BrightnessRange
  {
  }

  /** With the global duration left at 0, commands without a duration are
      instant: each writes once and no fade is ever in progress. */
  lemma InstantCommands()
    ensures var a := FadeTo(Channel(), 60, None, 0);
      var b := Off(a, None, 0);
      var c := On(b, None, 0);
      && !IsFading(a) && !IsFading(b) && !IsFading(c)
      && a.current == 60 && b.current == 0 && c.current == 60
      && c.written == [614, 0, 614]
  {
  }

  /** On a refused pin (0), commands still set the logical state and the
      target, but nothing is written and no fade starts. */
  lemma RefusedPinCommand()
    ensures var r := FadeTo(Construct(0, false, None), 50, Some(1000), 0);
      && r.state && r.target == 50 && r.current == 0 && !IsFading(r) && r.written == []
  {
  }

  /** The dimming plan of the scenario below: fade_to(100, 0) from dark, then
      off(100), plans 10 steps of -10 every 10 ms from full brightness. */
  lemma DimmingPlan()
    ensures var d := Off(FadeTo(Channel(), 100, Some(0), 0), Some(100), 0);
      && PinValid(d.pin) && !d.state && d.target == 0 && d.current == 100
      && d.delta == -10 && d.numSteps == 10 && d.deltaTime == 10
      && d.currentSteps == 0 && IsFading(d) && d.fadeTimer == 0
  {
    var lit := FadeTo(Channel(), 100, Some(0), 0);
    assert lit.current == 100 && lit.previous == 100 && lit.fadeTimer == 0;
  }

  /** On any channel dimming from full brightness in steps of -10 every 10 ms,
      one step (to 90) followed by an instant fade_to(0) brings the brightness
      to 0 but leaves the plan running; its next step writes 0 - 10, which the
      byte parameter of the PWM write turns into 246 and the clamp into 100. */
  lemma InstantOffFlashes(dimming: FadeState)
    requires PinValid(dimming.pin) && dimming.current == 100 && dimming.fadeTimer == 0
    requires dimming.delta == -10 && dimming.numSteps == 10 && dimming.deltaTime == 10
    requires dimming.currentSteps == 0 && IsFading(dimming)
    ensures var stepped := Loop(dimming, 11);
      var dark := FadeTo(stepped, 0, Some(0), 11);
      var flash := Loop(dark, 22);
      && stepped.current == 90
      && dark.current == 0 && IsFading(dark)
      && flash.current == 100 && flash.target == 0
  {
    var stepped := Loop(dimming, 11);
    assert stepped.fadeTimer == 11 && stepped.currentSteps == 1 && stepped.current == 90;
    var dark := FadeTo(stepped, 0, Some(0), 11);
    assert dark.delta == -10 && dark.numSteps == 10 && dark.currentSteps == 1 && dark.current == 0;
  }

  /** An instant command does not cancel a plan in flight. Fade from 100 to 0
      in 10 steps of -10, take one step (brightness 90), then fade_to(0, 0):
      the brightness drops to 0 at once, but the old plan keeps running, and
      its next step jumps the LED to full brightness while the target is 0. */
  lemma InstantCommandKeepsPlanRunning()
    ensures var lit := FadeTo(Channel(), 100, Some(0), 0);
      var dimming := Off(lit, Some(100), 0);
      var stepped := Loop(dimming, 11);
      var dark := FadeTo(stepped, 0, Some(0), 11);
      var flash := Loop(dark, 22);
      && dimming.delta == -10 && dimming.numSteps == 10
      && stepped.current == 90
      && dark.current == 0 && IsFading(dark)
      && flash.current == 100 && flash.target == 0
  {
    DimmingPlan();
    InstantOffFlashes(Off(FadeTo(Channel(), 100, Some(0), 0), Some(100), 0));
  }
}

=== FILE: session.dfy ===
/** A channel's whole life: any sequence of calls to its public operations,
    each at a clock reading. The invariant `Valid` holds after every such
    sequence, a channel built on a refused pin stays dark and idle whatever is
    called on it, and the on/off commands restore the remembered brightness. */
module Session {
  import opened Options
  import opened Pwm
  import opened Planner
  import F = Fade

  /** A call to one of the channel's public operations. */
  datatype Op =
    | Loop
    | On(duration: Option<nat>)
    | Off(duration: Option<nat>)
    | Toggle(duration: Option<nat>)
    | FadeTo(brightness: Byte, duration: Option<nat>)
    | SetGlobalDuration(global: nat)
    | SetGammaCallback(callback: Option<int -> int>)

  /** A call together with the clock reading at the time of the call. */
  datatype Event = Event(now: nat, op: Op)

  /** What the model assumes of a call: the clock has not gone back past the
      last step, a command's duration is in the exactly modelled range, and a
      fade_to brightness is in the brightness range. */
  predicate Admissible(s: F.FadeState, e: Event) {
    && s.fadeTimer <= e.now
    && match e.op
       case On(d) => F.CommandReady(s, d, e.now)
       case Off(d) => F.CommandReady(s, d, e.now)
       case Toggle(d) => F.CommandReady(s, d, e.now)
       case FadeTo(b, d) => b <= BrightnessRange && F.CommandReady(s, d, e.now)
       case _ => true
  }

  /** The state after one call. */
  function Apply(s: F.FadeState, e: Event): (r: F.FadeState)
    requires Admissible(s, e)
    ensures F.Valid(s) ==> F.Valid(r)
    ensures r.pin == s.pin
  {
    match e.op
    case Loop => F.Loop(s, e.now)
    case On(d) => F.On(s, d, e.now)
    case Off(d) => F.Off(s, d, e.now)
    case Toggle(d) => F.Toggle(s, d, e.now)
    case FadeTo(b, d) => F.FadeTo(s, b, d, e.now)
    case SetGlobalDuration(g) => F.SetGlobalDuration(s, g)
    case SetGammaCallback(c) => F.SetGammaCallback(s, c)
  }

  /** Every call of the sequence is admissible in the state it meets. */
  predicate AdmissibleRun(s: F.FadeState, events: seq<Event>)
    decreases |events|
  {
    |events| == 0 || (Admissible(s, events[0]) && AdmissibleRun(Apply(s, events[0]), events[1..]))
  }

  /** The state after a sequence of calls; the invariant is kept throughout. */
  function Replay(s: F.FadeState, events: seq<Event>): (r: F.FadeState)
    requires AdmissibleRun(s, events)
    ensures F.Valid(s) ==> F.Valid(r)
    ensures r.pin == s.pin
    decreases |events|
  {
    if |events| == 0 then s else Replay(Apply(s, events[0]), events[1..])
  }

  /** A channel whose constructor refused the pin never writes the pin, never
      leaves brightness 0, and never reports a fade in progress, whatever
      sequence of calls it receives. */
  lemma RefusedPinStaysInert(pin: Byte, inverted: bool, gamma: Option<int -> int>, events: seq<Event>)
    requires !PinValid(pin)
    requires AdmissibleRun(F.Construct(pin, inverted, gamma), events)
    ensures var r := Replay(F.Construct(pin, inverted, gamma), events);
      r.written == [] && r.current == 0 && !F.IsFading(r)
  {
  }

  /** off followed by on brings back the brightness that was targeted before
      the off. */
  lemma OffThenOnRestores(s: F.FadeState, d1: Option<nat>, n1: nat, d2: Option<nat>, n2: nat)
    requires F.Valid(s) && PinValid(s.pin) && s.target != 0
    requires F.CommandReady(s, d1, n1) && n1 <= n2
    requires F.Resolve(s.globalDuration, d2) < ExactDurationLimit
    ensures F.CommandReady(F.Off(s, d1, n1), d2, n2)
    ensures var r := F.On(F.Off(s, d1, n1), d2, n2); r.target == s.target && r.state
  {
    var m := F.Off(s, d1, n1);
    assert m.globalDuration == s.globalDuration;
  }

  /** Two toggles give back the logical state and the target. */
  lemma ToggleTwiceRestores(s: F.FadeState, d1: Option<nat>, n1: nat, d2: Option<nat>, n2: nat)
    requires F.Valid(s) && PinValid(s.pin)
    requires F.CommandReady(s, d1, n1) && n1 <= n2
    requires F.Resolve(s.globalDuration, d2) < ExactDurationLimit
    ensures F.CommandReady(F.Toggle(s, d1, n1), d2, n2)
    ensures var r := F.Toggle(F.Toggle(s, d1, n1), d2, n2); r.state == s.state && r.target == s.target
  {
    var m := F.Toggle(s, d1, n1);
    assert m.globalDuration == s.globalDuration;
  }
}
